=== FILE: README.md ===
# Request dispatch of a goa application, modelled in Dafny

This project models the request-dispatch core of the goa web framework's `Application`
(application.go). It covers registration of middleware and of the error handler, the
composition of the middleware chain around a business handler, and the per-request
dispatcher that `NewHTTPRouterHandle` returns. That dispatcher copies route and query
parameters, decodes the payload only when one is declared, answers with a 400 "invalid
request" after a decode failure, and calls the error handler with "unhandled request" when
nothing answered. It also covers the two built-in error-handler policies,
`DefaultErrorHandler` and `TerseErrorHandler`.

The model is written as pure functions and side-effect-free methods over immutable values:

- `context.dfy` (module `RequestContext`) is the abstract per-request `Context`. It holds the
  response (a write counter, status, headers and body), errors carrying a `badRequest` flag in
  place of the `*BadRequestError` type test, and the trace of observable events.
- `errorhandlers.dfy` (module `ErrorHandlers`) holds the policies: `Default`, `Terse`, and
  `Silent`. `Silent` stands for a user-supplied error handler that writes nothing.
- `chain.dfy` (module `Chain`) holds the business handlers (`Reply`, `Fail`, `NoReply`) and the
  middleware variants. `PassThrough` records before/after events. `ShortCircuit` answers
  itself. `Reject` returns an error without calling inward. The module also has the terminal
  wrapper, the evaluator `Eval`, the reference nesting `Nest` and the source's fold `Compose`.
- `application.dfy` (module `App`) holds `New`, `Use`, `SetErrorHandler`,
  `NewHTTPRouterHandle`, the dispatcher `Dispatch`, its imperative twin `ServeHTTP`, and the
  end-to-end properties.

Composition order: the loop applies `chain[ml-i-1]` for `i = 0..ml-1`, so the
effective handler is `chain[0](chain[1](…chain[n-1](terminal)))`. The first-registered
middleware is the outermost.

Consequences of application.go worth knowing:

- The dispatcher discards the error returned by the composed handler (`handler(ctx)` at
  application.go:166). Only the business handler's error reaches the error handler, through
  the terminal wrapper. An error returned by a middleware is therefore dropped. The final
  check at application.go:169 asks only whether anything has been written. If nothing has
  been written when the composed handler returns, the request counts as unhandled and the
  error handler receives "unhandled request" (`App.MiddlewareErrorDropped`). If anything was
  written, by that middleware or by a handler inside it, the error is dropped and the error
  handler is never called (`App.ShortCircuitAnswers`, for a short-circuit whose write failed).
- "Exactly one response" holds only over a working transport with a responding error handler
  (`App.ExactlyOneWrite`). Suppose a business handler's write fails. It returns that error, and
  the error handler writes a second time.
- A user error handler that writes nothing is called twice for a failing business handler.
  The first call carries the handler's error and the second "unhandled request"
  (`App.BusinessFailureAnswer`).
- The middleware chain is captured when the handle is built. The error handler is read
  through the application on every request. So a later `Use` does not affect an existing
  handle, but a later `SetErrorHandler` does (`App.HandleCapturesChainOnly`,
  `App.DispatchReadsOnlyErrorHandler`).

## Model

| member | source | states |
|---|---|---|
| RequestContext.Respond | application.go:184-186 | sets the written flag and adds one write, even when the transport fails; records status and body; leaves headers and request fields unchanged; returns an error exactly when the transport refuses the write |
| RequestContext.NewContext | application.go:150 | the new context holds the given parameters, query, payload and transport state, with nothing written and no headers |
| RequestContext.SetHeader | application.go:181 | sets one header; every other header and the rest of the response are unchanged |
| ErrorHandlers.DefaultErrorHandler | application.go:175-187 | status 400 for a bad-request error, else 500; the only header change is `Content-Type: application/json` added for a bad-request error, every other header is kept; body is the message in both cases; exactly one write; a failed write is only logged |
| ErrorHandlers.TerseErrorHandler | application.go:189-202 | same status as the default policy, and the same header rule: only `Content-Type: application/json` is added, for a bad-request error; body is the message for a bad request and empty for a 500; exactly one write; a failed write is only logged |
| ErrorHandlers.HandleError | application.go:178-202 | a built-in policy always leaves the response written with one more write; a silent handler changes nothing; the only event an error handler records is a logged write failure |
| ErrorHandlers.TerseDiffersOnlyInInternalBody | application.go:189-199 | both policies agree on status, headers, write count and trace; their bodies are equal iff the error is a bad request or its message is empty |
| ErrorHandlers.HandleErrorNeverReenters | application.go:184-201 | no error handler calls the error handler again, whether or not its write fails |
| Chain.InvalidRequestBody | application.go:157 | the decode-failure body is the fixed JSON prefix of kind "invalid request" and message "invalid JSON: ", then the decoder's text verbatim and unescaped, then the closing `"}` |
| Chain.InvalidRequestBodyInjective | application.go:157 | distinct decoder errors give distinct bodies, so the decoder's text can be read back from the body |
| Chain.NestPeels | application.go:123-125 | nesting a chain around an unwrapped handler can be undone: the layers are the chain in order and the core is that handler |
| Chain.RunBusiness | application.go:118 | the business handler runs once; it fails iff it is a failing handler, or a replying one whose write fails; only a reply writes |
| Chain.RunTerminal | application.go:117-122 | the terminal wrapper always returns success; it calls the error handler exactly once, with the business handler's error, iff that handler fails, and never otherwise |
| Chain.Eval | application.go:117-125 | a composed handler changes only the response of the context, and never decreases the write count |
| Chain.Compose | application.go:123-125 | the source's reverse fold over the chain yields exactly `chain[0](chain[1](…chain[n-1](base)))` |
| Chain.NestLayers | application.go:123-125 | in the composed handler the first-registered middleware is outermost; layer k is `chain[k]`, with `chain[..k]` outside it and `chain[k+1..]` inside it |
| Chain.PassThroughTrace | application.go:123-125 | with pass-through middleware the trace is `before_0 … before_{n-1}`, then the inner handler's trace, then `after_{n-1} … after_0`; the inner context and error come out unchanged |
| Chain.StopTrace | application.go:123-125 | if `chain[k]` is the first middleware that stops (short-circuits or rejects), the outcome is what `chain[k]` does alone, observed by `chain[..k]`; nothing of `chain[k+1..]` or the terminal appears |
| Chain.StopIsolatesInner | application.go:123-125 | with the first stopping middleware at k, replacing everything inside `chain[k]` changes nothing, and the business handler never runs |
| Chain.StopQuiet | application.go:117-125 | behind a short-circuit the error handler is never called; a short circuit's status is the response; a rejection leaves the context unchanged and returns its error |
| Chain.FirstStop | application.go:123-125 | any stopping middleware in a chain has a first stopping one at or before it, with only pass-through middleware outside it |
| Chain.StopHidesInner | application.go:123-125 | a stopping middleware at any position k, not only the first, hides every later middleware and the base handler: replacing them changes nothing |
| Chain.PassThroughQuiet | application.go:123-125 | pass-through middleware adds no error-handler call and no business run to what the inner handler does |
| Chain.EvalNeverDecodes | application.go:142-145 | no composed handler attempts decoding: only the dispatcher does |
| Chain.FallbackNeverRunsBusiness | application.go:155-163 | the invalid-request responder, wrapped in any chain, never invokes a business handler |
| Chain.EvalWritesAtMostOnce | application.go:117-122 | from an unanswered request over a working transport, a composed handler writes at most once; a handler returning an error has written nothing |
| App.New | application.go:68-76 | a new application has the given name, an empty middleware chain and the default error handler |
| App.Use | application.go:78-87 | appends exactly one middleware at the end; earlier entries, their order, the name and the error handler are unchanged |
| App.UseAllAppends | application.go:81-87 | registering middleware one call at a time yields the chain in registration order |
| App.SetErrorHandler | application.go:89-96 | replaces the error handler only; name and middleware are untouched |
| App.SetErrorHandlerLastWins | application.go:94-96 | the last `SetErrorHandler` wins, and it commutes with `Use` |
| App.NewHTTPRouterHandle | application.go:113-125 | the handle captures the current chain and the composed handler `chain[0](…chain[n-1](terminal))` |
| App.CopyParams | application.go:128-132 | the copied map holds exactly the parameter names that occur, each with the value of the last parameter of that name |
| App.CopyParamsLoop | application.go:129-131 | the source's loop over the parameters computes the same map as `CopyParams` |
| App.CopyQuery | application.go:133-137 | the copied query holds the same names with the same value lists |
| App.ContextFor | application.go:139-151 | the starting context holds the copied parameters; a payload is present iff the content length is positive and decoding succeeded; nothing is written yet |
| App.SelectHandler | application.go:153-163 | for a valid handle, the selected handler's middleware layers are exactly the captured chain, outermost first, and its core is the invalid-request responder after a decode failure and the terminal wrapper around the business handler otherwise |
| App.EnsureResponse | application.go:168-171 | the error handler is called with "unhandled request" iff nothing was written; a written response is left untouched; with a responding policy the response ends written |
| App.HandlerRun | application.go:150-166 | the handler run sees the copied parameters and a payload only when decoding ran and succeeded |
| App.Dispatch | application.go:127-172 | the request's parameters reach the context; with a responding error handler the response is always written when dispatch returns |
| App.ServeHTTP | application.go:127-172 | the dispatcher written as the source's closure, with its parameter loop and its fold for the fallback, computes exactly `Dispatch`; the query copy is the comprehension `CopyQuery` |
| App.AroundRun | application.go:165-171 | after the handler run, the final check adds an error-handler call with "unhandled request" iff nothing was written, and no business or decode event |
| App.DispatchAroundRun | application.go:165-171 | the error-handler calls of a dispatch are those of the handler run, plus "unhandled request" iff the run wrote nothing; a written run's outcome is kept |
| App.DispatchReadsOnlyErrorHandler | application.go:127-170 | two applications with the same error handler dispatch every request identically through a handle; nothing else of the application is read per request |
| App.HandleCapturesChainOnly | application.go:115-119 | a later `Use` does not change what a bound handle does; after `SetErrorHandler(p)` the handle dispatches as under any application whose error handler is p; a handle bound after the call dispatches like one bound before it |
| App.DecodeOnlyWhenBodyPresent | application.go:139-145 | decoding is attempted iff the declared content length is positive |
| App.ExactlyOneWrite | application.go:165-171 | over a working transport with a responding error handler, every request receives exactly one write |
| App.DecodeFailureSkipsBusiness | application.go:153-163 | after a decode failure the business handler is never invoked, whatever the chain |
| App.DecodeFailureFallback | application.go:153-163 | after a decode failure, pass-through middleware still observe the request before and after; the answer is a single 400 with body `{"kind":"invalid request","msg":"invalid JSON: <err>"}` |
| App.ReplyPassesThrough | application.go:113-125 | a replying handler under pass-through middleware gives its own status and body in one write; every middleware observes it once, in composition order; no error-handler call |
| App.BusinessFailureAnswer | application.go:117-122 | a failing handler's error goes to the error handler once. Both policies answer 400 with JSON content type for a bad request and 500 otherwise. The body is the message under the default policy, and the message only for 400 under the terse one |
| App.UnhandledRequestAnswer | application.go:168-171 | a handler that neither writes nor fails leads to exactly one error-handler call, with "unhandled request"; a responding policy answers 500 |
| App.MiddlewareErrorDropped | application.go:165-171 | an error returned by a middleware that writes nothing (`Reject`) never reaches the error handler, which gets "unhandled request" instead; the business handler never runs, and every handle that agrees up to that middleware dispatches the request identically, so nothing inside it matters |
| App.ShortCircuitAnswers | application.go:165-171 | a short-circuiting middleware's status is the response; the business handler never runs and the error handler is never called; every handle that agrees up to that middleware dispatches identically; the composed handler returns an error exactly when the transport refused the write, and the dispatcher drops it |
| App.StopHidesInnerLayers | application.go:153-171 | for a stopping middleware at position k, two handles whose chains agree up to k dispatch every request identically, whatever their later middleware and business handlers |

## Left out

- `Run`, `http.ListenAndServe` and `Fatal` (application.go:98-106, 204-211) are left out. They are network I/O and process termination.
- The global `Log`, its `init`, the application logger and the per-handle child logger (application.go:55-66, 71, 126, 151) are left out. They only log. A logged write failure shows up as a `WriteFailureLogged` trace event.
- `context.WithCancel` and `defer cancel()` (application.go:148-149) are left out. They signal cancellation to goroutines, and this model has no concurrency.
- The JSON decoder is not modelled. Its verdict on the body is an input of the request (`DecodeResult`). When decoding fails, the context gets no payload; the source keeps whatever the decoder left in `payload`. A body that decodes to JSON `null` is a present payload in the model, while in the source it leaves `payload` nil; no modelled operation reads the payload, so nothing else depends on it.
- `httprouter` route matching, the router field and `http.ResponseWriter` are not modelled. The route parameters and the parsed query are inputs of the request.
- The runtime `Context` type (`NewContext`, `Respond`, `ResponseWritten`, `Header`) is not part of this model. It is described abstractly. `Respond` sets the written flag and counts writes. It fails exactly when the transport refuses writes. A second write replaces status and body ("last write wins").
- `NewMiddleware`, the conversion inside `Use`, is not part of this model. `Use` is a plain append, and the `Fatal` on an invalid middleware is left out.
- Business handlers, middleware and custom error handlers are closed sets of representative behaviours rather than arbitrary Go functions. In particular, a business handler that both writes and returns an error is not modelled.
- Middleware variants: none writes a response and then returns an error of its own over a working transport (an authorisation layer that sends 401 and returns its own error); and none calls inward and then returns an error of its own (a recovery layer, or a check after the call), because `PassThrough` always returns the inner handler's error. Such a middleware would behave like `ShortCircuit` over a broken transport: its error dropped, the request answered, the error handler not called.
- Response bodies are strings rather than byte slices. Statuses are unbounded integers.
- App.ExactlyOneWrite: assumes a working transport, because with a failing transport a replying handler's failed write is handed to the error handler, which writes again.

=== FILE: application.dfy ===
/** The application: registration of middleware and error handler (application.go:68-96) and
    the per-request dispatcher that `NewHTTPRouterHandle` builds (application.go:108-173). */
module App {
  import opened RequestContext
  import opened ErrorHandlers
  import opened Chain

  /** An application: its name, its error handler and its middleware chain, in registration
      order. The logger and the router are not part of this model. */
  datatype Application = Application(name: string, errorHandler: ErrorPolicy, middleware: seq<Middleware>)

  /** `New`: an application with no middleware and the default error handler. */
  function New(name: string): (app: Application)
    ensures app.name == name
    ensures app.middleware == []
    ensures app.errorHandler == Default
  {
    Application(name, Default, [])
  }

  /** `Use`: appends one middleware at the end of the chain; nothing else changes. */
  function Use(app: Application, m: Middleware): (r: Application)
    ensures |r.middleware| == |app.middleware| + 1
    ensures r.middleware[..|app.middleware|] == app.middleware
    ensures r.middleware[|app.middleware|] == m
    ensures r.name == app.name && r.errorHandler == app.errorHandler
  {
    app.(middleware := app.middleware + [m])
  }

  /** Calls `Use` once per middleware, in order. */
  function UseAll(app: Application, ms: seq<Middleware>): Application
    decreases |ms|
  {
    if |ms| == 0 then app else UseAll(Use(app, ms[0]), ms[1..])
  }

  /** Registering middleware one by one yields the chain in registration order. */
  lemma {:induction false} UseAllAppends(app: Application, ms: seq<Middleware>)
    ensures UseAll(app, ms).middleware == app.middleware + ms
    ensures UseAll(app, ms).name == app.name
    ensures UseAll(app, ms).errorHandler == app.errorHandler
    decreases |ms|
  {
    if |ms| == 0 {
      assert app.middleware + ms == app.middleware;
    } else {
      UseAllAppends(Use(app, ms[0]), ms[1..]);
      assert (app.middleware + [ms[0]]) + ms[1..] == app.middleware + ms;
    }
  }

  /** `SetErrorHandler`: replaces the error handler only. */
  function SetErrorHandler(app: Application, policy: ErrorPolicy): (r: Application)
    ensures r.errorHandler == policy
    ensures r.name == app.name && r.middleware == app.middleware
  {
    app.(errorHandler := policy)
  }

  /** The last call of `SetErrorHandler` wins, and it is independent of `Use`. */
  lemma SetErrorHandlerLastWins(app: Application, p1: ErrorPolicy, p2: ErrorPolicy, m: Middleware)
    ensures SetErrorHandler(SetErrorHandler(app, p1), p2) == SetErrorHandler(app, p2)
    ensures Use(SetErrorHandler(app, p1), m) == SetErrorHandler(Use(app, m), p1)
  {
  }

  /** What `NewHTTPRouterHandle` captures: the chain as it was at that call, and the composed
      handler built from it. The error handler is not captured: it is read through the
      application on every request. */
  datatype RouterHandle = RouterHandle(
    resource: string,
    action: string,
    business: Business,
    chain: seq<Middleware>,
    composed: Handler)
  {
    predicate Valid() { composed == Nest(chain, Terminal(business)) }
  }

  /** `NewHTTPRouterHandle`: composes the chain around the terminal wrapper once, ahead of
      any request. */
  method NewHTTPRouterHandle(app: Application, resName: string, actName: string, h: Business)
    returns (hd: RouterHandle)
    ensures hd.Valid()
    ensures hd.chain == app.middleware && hd.business == h
    ensures hd.resource == resName && hd.action == actName
  {
    var composed := Compose(app.middleware, Terminal(h));
    hd := RouterHandle(resName, actName, h, app.middleware, composed);
  }

  /** A route parameter as the router extracted it. */
  datatype Param = Param(key: string, value: string)

  /** What the JSON decoder would make of the body: a value, or the decoder's error text. */
  datatype DecodeResult = Decoded(value: string) | DecodeError(text: string)

  /** An incoming request: route parameters, parsed query, declared content length, the
      decoder's verdict on the body, and whether the client connection accepts writes. */
  datatype Request = Request(
    params: seq<Param>,
    query: map<string, seq<string>>,
    contentLength: int,
    body: DecodeResult,
    transportOk: bool)
  {
    /** The decoder runs only for a positive declared content length. */
    predicate DecodeRuns() { contentLength > 0 }

    predicate DecodeFails() { DecodeRuns() && body.DecodeError? }
  }

  /** No later parameter has the name of the one at position i. */
  predicate IsLast(p: seq<Param>, i: int)
  {
    0 <= i < |p| && forall j :: i < j < |p| ==> p[j].key != p[i].key
  }

  /** Copies the route parameters into a map: exactly the names that occur, each holding the
      value of the last parameter with that name. */
  function CopyParams(p: seq<Param>): (m: map<string, string>)
    ensures forall k :: k in m <==> exists i :: 0 <= i < |p| && p[i].key == k
    ensures forall i :: IsLast(p, i) ==> m[p[i].key] == p[i].value
  {
    if |p| == 0 then map[]
    else
      var m0 := CopyParams(p[..|p| - 1]);
      CopyParamsStep(p, m0);
      m0[p[|p| - 1].key := p[|p| - 1].value]
  }

  /** The inductive step of `CopyParams`: adding the last parameter to a copy of the others. */
  lemma CopyParamsStep(p: seq<Param>, m0: map<string, string>)
    requires |p| > 0
    requires forall k :: k in m0 <==> exists i :: 0 <= i < |p| - 1 && p[i].key == k
    requires forall i :: IsLast(p[..|p| - 1], i) ==> m0[p[i].key] == p[i].value
    ensures var m := m0[p[|p| - 1].key := p[|p| - 1].value];
      && (forall k :: k in m <==> exists i :: 0 <= i < |p| && p[i].key == k)
      && (forall i :: IsLast(p, i) ==> m[p[i].key] == p[i].value)
  {
    var n := |p| - 1;
    var init := p[..n];
    var m := m0[p[n].key := p[n].value];
    forall k ensures k in m <==> exists i :: 0 <= i < |p| && p[i].key == k {
      if k in m && k != p[n].key {
        var i :| 0 <= i < n && p[i].key == k;
      }
    }
    forall i | IsLast(p, i) ensures m[p[i].key] == p[i].value {
      if i < n {
        assert init[i] == p[i];
        assert IsLast(init, i);
      }
    }
  }

  /** The source's loop over the route parameters. */
  method CopyParamsLoop(p: seq<Param>) returns (params: map<string, string>)
    ensures params == CopyParams(p)
  {
    params := map[];
    for i := 0 to |p|
      invariant params == CopyParams(p[..i])
    {
      assert p[..i + 1][..i] == p[..i];
      params := params[p[i].key := p[i].value];
    }
    assert p[..|p|] == p;
  }

  /** Copies the parsed query: the same names with the same value lists. */
  function CopyQuery(q: map<string, seq<string>>): (r: map<string, seq<string>>)
    ensures r == q
  {
    map k | k in q :: q[k]
  }

  /** The context a request starts with. The payload is present only when the decoder ran and
      succeeded. */
  function ContextFor(req: Request): (c: Context)
    ensures c.params == CopyParams(req.params) && c.query == req.query
    ensures c.payload.Some? <==> req.DecodeRuns() && req.body.Decoded?
    ensures c.payload.Some? ==> c.payload.value == req.body.value
    ensures c.transportOk == req.transportOk
    ensures !c.response.Written() && c.response.writes == 0
  {
    var payload := if req.DecodeRuns() && req.body.Decoded? then Some(req.body.value) else None;
    NewContext(CopyParams(req.params), CopyQuery(req.query), payload, req.transportOk)
  }

  /** The handler run for a request: the precomposed one, or after a decode failure the
      invalid-request responder wrapped in the same chain. */
  function SelectHandler(hd: RouterHandle, req: Request): (h: Handler)
    ensures hd.Valid() ==> Layers(h) == hd.chain
    ensures hd.Valid() ==>
      Core(h) == (if req.DecodeFails() then InvalidRequest(req.body.text) else Terminal(hd.business))
  {
    if req.DecodeFails() then
      NestPeels(hd.chain, InvalidRequest(req.body.text));
      Nest(hd.chain, InvalidRequest(req.body.text))
    else
      NestPeels(hd.chain, Terminal(hd.business));
      hd.composed
  }

  /** The final check: when nothing was written the error handler is called once more with
      "unhandled request"; otherwise the run's outcome is kept as it is. */
  function EnsureResponse(policy: ErrorPolicy, run: Run): (r: Effect)
    ensures run.ctx.response.Written() ==> r == Effect(run.ctx, run.trace)
    ensures ErrorCalls(r.trace) ==
      ErrorCalls(run.trace) + (if run.ctx.response.Written() then [] else [UnhandledRequest])
    ensures policy.Responds() ==> r.ctx.response.Written()
    ensures r.ctx.response.writes ==
      run.ctx.response.writes + (if !run.ctx.response.Written() && policy.Responds() then 1 else 0)
    ensures r.ctx == run.ctx.(response := r.ctx.response)
    ensures |r.trace| >= |run.trace| && r.trace[..|run.trace|] == run.trace
    ensures forall i :: |run.trace| <= i < |r.trace| ==> r.trace[i].ErrorHandled? || r.trace[i] == WriteFailureLogged
  {
    if run.ctx.response.Written() then Effect(run.ctx, run.trace)
    else
      var handled := HandleError(policy, run.ctx, UnhandledRequest);
      HandleErrorNeverReenters(policy, run.ctx, UnhandledRequest);
      ErrorCallsAppend(run.trace + [ErrorHandled(UnhandledRequest)], handled.trace);
      ErrorCallsAppend(run.trace, [ErrorHandled(UnhandledRequest)]);
      Effect(handled.ctx, run.trace + [ErrorHandled(UnhandledRequest)] + handled.trace)
  }

  /** The events before any handler runs: the decoder's, when it runs. */
  function Prelude(req: Request): seq<Event>
  {
    if req.DecodeRuns() then [DecodeAttempted] else []
  }

  /** Builds the request's context and runs the selected handler on it, with the error handler
      the application has now. */
  function HandlerRun(app: Application, hd: RouterHandle, req: Request): (r: Run)
    ensures r.ctx.params == CopyParams(req.params) && r.ctx.query == req.query
    ensures r.ctx.payload.Some? <==> req.DecodeRuns() && req.body.Decoded?
  {
    Eval(SelectHandler(hd, req), app.errorHandler, ContextFor(req))
  }

  /** The function `NewHTTPRouterHandle` returns, applied to one request. The chain comes
      from the handle; the error handler from the application as it is now. */
  function Dispatch(app: Application, hd: RouterHandle, req: Request): (r: Effect)
    ensures r.ctx.params == CopyParams(req.params) && r.ctx.query == req.query
    ensures r.ctx.payload.Some? <==> req.DecodeRuns() && req.body.Decoded?
    ensures app.errorHandler.Responds() ==> r.ctx.response.Written()
  {
    var done := EnsureResponse(app.errorHandler, HandlerRun(app, hd, req));
    Effect(done.ctx, Prelude(req) + done.trace)
  }

  /** The dispatcher written as the source's closure: a loop copies the parameters, and after
      a decode failure a second fold composes the responder with the captured chain. */
  method ServeHTTP(app: Application, hd: RouterHandle, req: Request) returns (r: Effect)
    ensures r == Dispatch(app, hd, req)
  {
    var params := CopyParamsLoop(req.params);
    var query := CopyQuery(req.query);

    var payload: Option<string> := None;
    var decodeError: Option<string> := None;
    var prelude: seq<Event> := [];
    if req.contentLength > 0 {
      prelude := [DecodeAttempted];
      match req.body
      case Decoded(v) => payload := Some(v);
      case DecodeError(t) => decodeError := Some(t);
    }

    var ctx := NewContext(params, query, payload, req.transportOk);
    var handler := hd.composed;
    if decodeError.Some? {
      handler := Compose(hd.chain, InvalidRequest(decodeError.value));
    }
    var run := Eval(handler, app.errorHandler, ctx);
    var done := EnsureResponse(app.errorHandler, run);
    r := Effect(done.ctx, prelude + done.trace);
  }

  /** What the final check adds after a handler run that started behind decoder events
      only: a call of the error handler with "unhandled request" exactly when the run wrote
      nothing, and no business or decoder event. */
  lemma AroundRun(policy: ErrorPolicy, pre: seq<Event>, run: Run)
    requires forall i :: 0 <= i < |pre| ==> pre[i] == DecodeAttempted
    ensures var done := EnsureResponse(policy, run);
      var t := pre + done.trace;
      && ErrorCalls(t) ==
           ErrorCalls(run.trace) + (if run.ctx.response.Written() then [] else [UnhandledRequest])
      && (BusinessRun in t <==> BusinessRun in run.trace)
      && (DecodeAttempted in t <==> DecodeAttempted in pre + run.trace)
  {
    var done := EnsureResponse(policy, run);
    var t := pre + done.trace;
    assert ErrorCalls(t) == ErrorCalls(done.trace) by {
      ErrorCallsAppend(pre, done.trace);
      ErrorCallsNone(pre);
    }
    var tail := done.trace[|run.trace|..];
    assert done.trace == run.trace + tail;
    assert BusinessRun !in tail && DecodeAttempted !in tail by {
      forall j | 0 <= j < |tail| ensures tail[j] != BusinessRun && tail[j] != DecodeAttempted {
        assert tail[j] == done.trace[|run.trace| + j];
      }
    }
    assert BusinessRun !in pre;
    assert t == (pre + run.trace) + tail;
  }

  /** What the dispatcher adds around the handler run: the decoder's event before it, and
      after it a call of the error handler with "unhandled request" exactly when the run wrote
      nothing. A written response is left as the run left it. */
  lemma DispatchAroundRun(app: Application, hd: RouterHandle, req: Request)
    ensures var r, run := Dispatch(app, hd, req), HandlerRun(app, hd, req);
      && ErrorCalls(r.trace) ==
           ErrorCalls(run.trace) + (if run.ctx.response.Written() then [] else [UnhandledRequest])
      && (BusinessRun in r.trace <==> BusinessRun in run.trace)
      && (DecodeAttempted in r.trace <==> DecodeAttempted in Prelude(req) + run.trace)
      && (run.ctx.response.Written() ==> r == Effect(run.ctx, Prelude(req) + run.trace))
  {
    AroundRun(app.errorHandler, Prelude(req), HandlerRun(app, hd, req));
  }

  /** Dispatch reads nothing of the application but its error handler. */
  lemma DispatchReadsOnlyErrorHandler(a1: Application, a2: Application, hd: RouterHandle, req: Request)
    requires a1.errorHandler == a2.errorHandler
    ensures Dispatch(a1, hd, req) == Dispatch(a2, hd, req)
  {
  }

  /** A bound handle keeps the chain it captured: middleware registered after binding has no
      effect on it. A later `SetErrorHandler(p)` does: the handle then dispatches as under any
      application whose error handler is p, and the moment of binding does not matter. */
  lemma HandleCapturesChainOnly(
    app: Application, hd: RouterHandle, late: RouterHandle, req: Request,
    m: Middleware, p: ErrorPolicy, other: Application)
    requires hd.Valid() && late.Valid()
    requires late.chain == hd.chain && late.business == hd.business
    ensures Dispatch(Use(app, m), hd, req) == Dispatch(app, hd, req)
    ensures other.errorHandler == p ==>
      Dispatch(SetErrorHandler(app, p), hd, req) == Dispatch(other, hd, req)
    ensures Dispatch(SetErrorHandler(app, p), late, req) == Dispatch(SetErrorHandler(app, p), hd, req)
  {
    DispatchReadsOnlyErrorHandler(Use(app, m), app, hd, req);
    if other.errorHandler == p {
      DispatchReadsOnlyErrorHandler(SetErrorHandler(app, p), other, hd, req);
    }
  }

  /** The decoder's event is in the trace exactly when the declared content length is
      positive. */
  lemma DecodeOnlyWhenBodyPresent(app: Application, hd: RouterHandle, req: Request)
    ensures DecodeAttempted in Dispatch(app, hd, req).trace <==> req.contentLength > 0
  {
    DispatchAroundRun(app, hd, req);
    EvalNeverDecodes(SelectHandler(hd, req), app.errorHandler, ContextFor(req));
  }

  /** Over a working transport and with an error handler that responds, every request gets
      exactly one write. */
  lemma ExactlyOneWrite(app: Application, hd: RouterHandle, req: Request)
    requires req.transportOk && app.errorHandler.Responds()
    ensures Dispatch(app, hd, req).ctx.response.writes == 1
  {
    EvalWritesAtMostOnce(SelectHandler(hd, req), app.errorHandler, ContextFor(req));
  }

  /** A decode failure never reaches the business handler, whatever the chain. */
  lemma DecodeFailureSkipsBusiness(app: Application, hd: RouterHandle, req: Request)
    requires req.DecodeFails()
    ensures BusinessRun !in Dispatch(app, hd, req).trace
  {
    DispatchAroundRun(app, hd, req);
    FallbackNeverRunsBusiness(hd.chain, req.body.text, app.errorHandler, ContextFor(req));
  }

  /** After a decode failure, a chain of pass-through middleware still observes the request
      in full, the answer is a 400 with the invalid-request body, and the error handler is
      not called. */
  lemma DecodeFailureFallback(app: Application, hd: RouterHandle, req: Request)
    requires req.DecodeFails() && AllPassThrough(hd.chain)
    ensures var r := Dispatch(app, hd, req);
      && r.ctx.response.status == 400
      && r.ctx.response.body == InvalidRequestBody(req.body.text)
      && r.ctx.response.writes == 1
      && r.trace == [DecodeAttempted] + Befores(hd.chain) + [InvalidRequestSent] + Afters(hd.chain)
  {
    var c := ContextFor(req);
    var fallback := InvalidRequest(req.body.text);
    PassThroughTrace(hd.chain, fallback, app.errorHandler, c);
    var run := HandlerRun(app, hd, req);
    assert run == Eval(Nest(hd.chain, fallback), app.errorHandler, c);
    var inner := Eval(fallback, app.errorHandler, c);
    assert inner.trace == [InvalidRequestSent] && inner.ctx.response.writes == 1;
    assert run.ctx == inner.ctx;
    DispatchAroundRun(app, hd, req);
  }

  /** With pass-through middleware and no decode failure, a replying business handler's answer
      is the response, written once, and each middleware observes it exactly once around the
      business handler. */
  lemma ReplyPassesThrough(app: Application, hd: RouterHandle, req: Request)
    requires hd.Valid() && AllPassThrough(hd.chain) && hd.business.Reply?
    requires !req.DecodeFails() && req.transportOk
    ensures var r := Dispatch(app, hd, req);
      && r.ctx.response.status == hd.business.status
      && r.ctx.response.body == hd.business.body
      && r.ctx.response.writes == 1
      && ErrorCalls(r.trace) == []
      && r.trace == Prelude(req) + Befores(hd.chain) + [BusinessRun] + Afters(hd.chain)
  {
    var c := ContextFor(req);
    var base := Terminal(hd.business);
    var run := HandlerRun(app, hd, req);
    var inner := Eval(base, app.errorHandler, c);
    var r := Dispatch(app, hd, req);
    assert run.trace == Befores(hd.chain) + inner.trace + Afters(hd.chain) && run.ctx == inner.ctx
        && ErrorCalls(run.trace) == ErrorCalls(inner.trace) by {
      assert run == Eval(Nest(hd.chain, base), app.errorHandler, c);
      PassThroughTrace(hd.chain, base, app.errorHandler, c);
      PassThroughQuiet(hd.chain, base, app.errorHandler, c);
    }
    assert inner.trace == [BusinessRun] && ErrorCalls(inner.trace) == [];
    assert inner.ctx.response.writes == 1;
    assert r == Effect(run.ctx, Prelude(req) + run.trace) && ErrorCalls(r.trace) == ErrorCalls(run.trace) by {
      DispatchAroundRun(app, hd, req);
    }
    assert Prelude(req) + (Befores(hd.chain) + [BusinessRun] + Afters(hd.chain))
        == Prelude(req) + Befores(hd.chain) + [BusinessRun] + Afters(hd.chain);
  }

  /** A failing business handler under pass-through middleware: the error handler is called
      once with that error, and its policy decides the answer. A handler that writes nothing is
      called a second time, with "unhandled request". */
  lemma BusinessFailureAnswer(app: Application, hd: RouterHandle, req: Request)
    requires hd.Valid() && AllPassThrough(hd.chain) && hd.business.Fail?
    requires !req.DecodeFails()
    ensures var r := Dispatch(app, hd, req);
      var e := hd.business.err;
      && ErrorCalls(r.trace) == [e] + (if app.errorHandler.Responds() then [] else [UnhandledRequest])
      && (app.errorHandler.Responds() ==>
            && r.ctx.response.status == (if e.badRequest then 400 else 500)
            && (e.badRequest ==>
                  ContentType in r.ctx.response.headers
                  && r.ctx.response.headers[ContentType] == JsonMediaType)
            && r.ctx.response.writes == 1)
      && (app.errorHandler.Default? ==> r.ctx.response.body == e.message)
      && (app.errorHandler.Terse? ==> r.ctx.response.body == (if e.badRequest then e.message else ""))
  {
    DispatchAroundRun(app, hd, req);
    PassThroughQuiet(hd.chain, Terminal(hd.business), app.errorHandler, ContextFor(req));
  }

  /** A business handler that neither writes nor fails: the dispatcher calls the error handler
      with "unhandled request", and a responding policy answers 500. */
  lemma UnhandledRequestAnswer(app: Application, hd: RouterHandle, req: Request)
    requires hd.Valid() && AllPassThrough(hd.chain) && hd.business.NoReply?
    requires !req.DecodeFails()
    ensures var r := Dispatch(app, hd, req);
      && ErrorCalls(r.trace) == [UnhandledRequest]
      && (app.errorHandler.Responds() ==> r.ctx.response.Written() && r.ctx.response.status == 500)
  {
    DispatchAroundRun(app, hd, req);
    PassThroughQuiet(hd.chain, Terminal(hd.business), app.errorHandler, ContextFor(req));
  }

  /** The handler a valid handle runs, as a nesting of its chain around a base. */
  lemma SelectedNest(hd: RouterHandle, req: Request)
    requires hd.Valid()
    ensures SelectHandler(hd, req) ==
      Nest(hd.chain, if req.DecodeFails() then InvalidRequest(req.body.text) else Terminal(hd.business))
  {
  }

  /** Behind a stopping middleware at position k, nothing of the handle matters except the
      layers up to k: two handles that agree on them dispatch every request identically,
      whatever their later middleware and business handlers are. */
  lemma StopHidesInnerLayers(app: Application, hd: RouterHandle, hd2: RouterHandle, req: Request, k: nat)
    requires hd.Valid() && hd2.Valid() && k < |hd.chain| && hd.chain[k].Stops()
    requires k < |hd2.chain| && hd2.chain[..k + 1] == hd.chain[..k + 1]
    ensures Dispatch(app, hd, req) == Dispatch(app, hd2, req)
  {
    SelectedNest(hd, req);
    SelectedNest(hd2, req);
    var b1 := if req.DecodeFails() then InvalidRequest(req.body.text) else Terminal(hd.business);
    var b2 := if req.DecodeFails() then InvalidRequest(req.body.text) else Terminal(hd2.business);
    assert hd2.chain[k] == hd2.chain[..k + 1][k];
    StopHidesInner(hd.chain, k, b1, b1, app.errorHandler, ContextFor(req));
    StopHidesInner(hd2.chain, k, b2, b1, app.errorHandler, ContextFor(req));
  }

  /** An error returned by a middleware is dropped by the dispatcher: it never reaches the error
      handler, which is called with "unhandled request" instead. Neither the inner middleware
      nor the business handler runs, and this holds with or without a decode failure: any
      handle `hd2` that agrees with `hd` up to layer k dispatches the request identically. */
  lemma MiddlewareErrorDropped(app: Application, hd: RouterHandle, req: Request, k: nat, hd2: RouterHandle)
    requires hd.Valid() && k < |hd.chain| && AllPassThrough(hd.chain[..k]) && hd.chain[k].Reject?
    ensures var r := Dispatch(app, hd, req);
      && ErrorCalls(r.trace) == [UnhandledRequest]
      && BusinessRun !in r.trace
    ensures hd2.Valid() && k < |hd2.chain| && hd2.chain[..k + 1] == hd.chain[..k + 1] ==>
      Dispatch(app, hd2, req) == Dispatch(app, hd, req)
  {
    DispatchAroundRun(app, hd, req);
    SelectedNest(hd, req);
    var base := if req.DecodeFails() then InvalidRequest(req.body.text) else Terminal(hd.business);
    StopQuiet(hd.chain, k, base, app.errorHandler, ContextFor(req));
    if hd2.Valid() && k < |hd2.chain| && hd2.chain[..k + 1] == hd.chain[..k + 1] {
      StopHidesInnerLayers(app, hd, hd2, req, k);
    }
  }

  /** A short-circuiting middleware answers alone: its status is the response, nothing inside
      it runs (any handle `hd2` that agrees with `hd` up to layer k dispatches identically), and
      the error handler is never called. Over a broken transport its write error is returned
      and dropped by the dispatcher, but the request still counts as answered. */
  lemma ShortCircuitAnswers(app: Application, hd: RouterHandle, req: Request, k: nat, hd2: RouterHandle)
    requires hd.Valid() && k < |hd.chain| && AllPassThrough(hd.chain[..k]) && hd.chain[k].ShortCircuit?
    ensures var r := Dispatch(app, hd, req);
      && r.ctx.response.status == hd.chain[k].status
      && ErrorCalls(r.trace) == []
      && BusinessRun !in r.trace
    ensures HandlerRun(app, hd, req).err.Some? <==> !req.transportOk
    ensures hd2.Valid() && k < |hd2.chain| && hd2.chain[..k + 1] == hd.chain[..k + 1] ==>
      Dispatch(app, hd2, req) == Dispatch(app, hd, req)
  {
    DispatchAroundRun(app, hd, req);
    SelectedNest(hd, req);
    var base := if req.DecodeFails() then InvalidRequest(req.body.text) else Terminal(hd.business);
    StopQuiet(hd.chain, k, base, app.errorHandler, ContextFor(req));
    if hd2.Valid() && k < |hd2.chain| && hd2.chain[..k + 1] == hd.chain[..k + 1] {
      StopHidesInnerLayers(app, hd, hd2, req, k);
    }
  }
}

=== FILE: chain.dfy ===
/** Business handlers, middleware and their composition into the effective request handler
    (application.go:113-125 and the decode-failure responder of lines 153-163). */
module Chain {
  import opened RequestContext
  import opened ErrorHandlers

  /** A business handler, as generated code supplies it: it answers, fails, or returns without
      doing either. */
  datatype Business =
    | Reply(status: int, body: string)  // writes a response and returns Respond's error
    | Fail(err: Error)                  // returns an error without writing
    | NoReply                           // returns nil without writing

  /** A middleware, i.e. a transformation of the handler it wraps. */
  datatype Middleware =
    | PassThrough(id: nat)              // records Before, calls inward, records After
    | ShortCircuit(id: nat, status: int) // answers with an empty body, never calls inward
    | Reject(id: nat, err: Error)       // returns an error, never calls inward
  {
    /** True of the variants that never call the handler they wrap. */
    predicate Stops() { !PassThrough? }
  }

  /** A composed handler: the terminal wrapper around a business handler, the decode-failure
      responder, or a middleware wrapped around an inner handler. */
  datatype Handler =
    | Terminal(business: Business)
    | InvalidRequest(decodeError: string)
    | Wrap(outer: Middleware, inner: Handler)

  /** Everything of the decode-failure body that comes before the decoder's text. */
  const InvalidRequestPrefix := "{\"kind\":\"invalid request\",\"msg\":\"invalid JSON: "

  /** The body the decode-failure responder sends: a JSON object of kind "invalid request"
      whose message carries the decoder's text verbatim, without escaping. */
  function InvalidRequestBody(decodeError: string): (body: string)
    ensures |body| == |InvalidRequestPrefix| + |decodeError| + 2
    ensures body[..|InvalidRequestPrefix|] == InvalidRequestPrefix
    ensures body[|InvalidRequestPrefix|..|body| - 2] == decodeError
    ensures body[|body| - 2..] == "\"}"
  {
    InvalidRequestPrefix + decodeError + "\"}"
  }

  /** Distinct decoder errors give distinct bodies: the text can be read back from the body. */
  lemma InvalidRequestBodyInjective(e1: string, e2: string)
    requires InvalidRequestBody(e1) == InvalidRequestBody(e2)
    ensures e1 == e2
  {
    var b := InvalidRequestBody(e1);
    assert e1 == b[|InvalidRequestPrefix|..|b| - 2];
  }

  /** Invokes the business handler itself. */
  function RunBusiness(b: Business, c: Context): (r: Run)
    ensures r.trace == [BusinessRun]
    ensures r.err.Some? <==> b.Fail? || (b.Reply? && !c.transportOk)
    ensures b.Fail? ==> r.ctx == c && r.err == Some(b.err)
    ensures r.ctx == c.(response := r.ctx.response)
    ensures r.ctx.response.writes == c.response.writes + (if b.Reply? then 1 else 0)
  {
    match b
    case Reply(status, body) =>
      var w := Respond(c, status, body);
      Run(w.ctx, [BusinessRun], w.err)
    case Fail(e) => Run(c, [BusinessRun], Some(e))
    case NoReply => Run(c, [BusinessRun], None)
  }

  /** The terminal wrapper: runs the business handler, passes its error (if any) to the
      application error handler, and always returns success. The error handler is called
      exactly once, with the business handler's error, when and only when that handler fails. */
  function RunTerminal(b: Business, policy: ErrorPolicy, c: Context): (r: Run)
    ensures r.err == None
    ensures ErrorCalls(r.trace) ==
      (var inner := RunBusiness(b, c); if inner.err.Some? then [inner.err.value] else [])
    ensures |r.trace| > 0 && r.trace[0] == BusinessRun
    ensures r.ctx == c.(response := r.ctx.response)
    ensures r.ctx.response.writes >= c.response.writes
  {
    var inner := RunBusiness(b, c);
    if inner.err.Some? then
      var handled := HandleError(policy, inner.ctx, inner.err.value);
      HandleErrorNeverReenters(policy, inner.ctx, inner.err.value);
      ErrorCallsAppend(inner.trace + [ErrorHandled(inner.err.value)], handled.trace);
      ErrorCallsAppend(inner.trace, [ErrorHandled(inner.err.value)]);
      Run(handled.ctx, inner.trace + [ErrorHandled(inner.err.value)] + handled.trace, None)
    else
      Run(inner.ctx, inner.trace, None)
  }

  /** What a middleware that never calls inward does. */
  function Stop(m: Middleware, c: Context): (r: Run)
    requires m.Stops()
    ensures r.ctx == c.(response := r.ctx.response)
    ensures r.trace == (if m.ShortCircuit? then [ShortCircuited(m.id)] else [Rejected(m.id)])
    ensures m.Reject? ==> r.ctx == c && r.err == Some(m.err)
    ensures m.ShortCircuit? ==>
      r.ctx.response.Written() && r.ctx.response.status == m.status && r.ctx.response.body == ""
    ensures m.ShortCircuit? ==> (r.err.Some? <==> !c.transportOk)
  {
    match m
    case ShortCircuit(id, status) =>
      var w := Respond(c, status, "");
      Run(w.ctx, [ShortCircuited(id)], w.err)
    case Reject(id, e) => Run(c, [Rejected(id)], Some(e))
  }

  /** Runs a composed handler against a context, with the application's current error handler.
      Handlers change only the response, and never take back a write. */
  function Eval(h: Handler, policy: ErrorPolicy, c: Context): (r: Run)
    ensures r.ctx == c.(response := r.ctx.response)
    ensures r.ctx.response.writes >= c.response.writes
    decreases h
  {
    match h
    case Terminal(b) => RunTerminal(b, policy, c)
    case InvalidRequest(text) =>
      // The responder ignores the error of its own write.
      var w := Respond(c, 400, InvalidRequestBody(text));
      Run(w.ctx, [InvalidRequestSent], None)
    case Wrap(m, inner) =>
      if m.Stops() then Stop(m, c)
      else
        var r := Eval(inner, policy, c);
        Run(r.ctx, [Before(m.id)] + r.trace + [After(m.id)], r.err)
  }

  /** Reference composition: `chain[0](chain[1](...chain[n-1](base)))`. */
  function Nest(chain: seq<Middleware>, base: Handler): Handler
  {
    if |chain| == 0 then base else Wrap(chain[0], Nest(chain[1..], base))
  }

  /** The source's fold: `for i := range chain { h = chain[ml-i-1](h) }`, which wraps from the
      last-registered middleware outwards, leaving the first-registered one outermost. */
  method Compose(chain: seq<Middleware>, base: Handler) returns (h: Handler)
    ensures h == Nest(chain, base)
  {
    var ml := |chain|;
    h := base;
    for i := 0 to ml
      invariant h == Nest(chain[ml - i..], base)
    {
      assert chain[ml - i - 1..][1..] == chain[ml - i..];
      h := Wrap(chain[ml - i - 1], h);
    }
    assert chain[0..] == chain;
  }

  /** Nesting distributes over concatenation of chains. */
  lemma {:induction false} NestAppend(c1: seq<Middleware>, c2: seq<Middleware>, base: Handler)
    ensures Nest(c1 + c2, base) == Nest(c1, Nest(c2, base))
  {
    if |c1| == 0 {
      assert c1 + c2 == c2;
    } else {
      assert (c1 + c2)[0] == c1[0] && (c1 + c2)[1..] == c1[1..] + c2;
      NestAppend(c1[1..], c2, base);
    }
  }

  /** The first-registered middleware is the outermost layer and `base` the innermost. */
  lemma {:induction false} NestLayers(chain: seq<Middleware>, base: Handler, k: nat)
    requires k < |chain|
    ensures Nest(chain, base) == Nest(chain[..k], Wrap(chain[k], Nest(chain[k + 1..], base)))
    ensures Nest(chain, base).Wrap? && Nest(chain, base).outer == chain[0]
  {
    assert chain == chain[..k] + chain[k..];
    NestAppend(chain[..k], chain[k..], base);
    assert chain[k..][0] == chain[k] && chain[k..][1..] == chain[k + 1..];
  }

  /** The middleware layers of a composed handler, outermost first. */
  function Layers(h: Handler): seq<Middleware>
  {
    if h.Wrap? then [h.outer] + Layers(h.inner) else []
  }

  /** The handler at the centre of a composed handler, inside every layer. */
  function Core(h: Handler): Handler
  {
    if h.Wrap? then Core(h.inner) else h
  }

  /** Nesting a chain around a handler that is not itself wrapped can be undone: its layers are
      the chain, in order, and its core is that handler. */
  lemma {:induction false} NestPeels(chain: seq<Middleware>, base: Handler)
    requires !base.Wrap?
    ensures Layers(Nest(chain, base)) == chain
    ensures Core(Nest(chain, base)) == base
  {
    if |chain| > 0 {
      NestPeels(chain[1..], base);
    }
  }

  predicate AllPassThrough(chain: seq<Middleware>)
  {
    forall i :: 0 <= i < |chain| ==> chain[i].PassThrough?
  }

  /** The `Before` events of a chain, outermost first. */
  function Befores(chain: seq<Middleware>): seq<Event>
  {
    seq(|chain|, k requires 0 <= k < |chain| => Before(chain[k].id))
  }

  /** The `After` events of a chain, innermost first. */
  function Afters(chain: seq<Middleware>): seq<Event>
  {
    seq(|chain|, k requires 0 <= k < |chain| => After(chain[|chain| - 1 - k].id))
  }

  lemma Regroup(b: seq<Event>, x: seq<Event>, i: seq<Event>, y: seq<Event>, a: seq<Event>)
    ensures b + (x + i + y) + a == (b + x) + i + (y + a)
  {
  }

  lemma BeforesAftersUnfold(chain: seq<Middleware>)
    requires |chain| > 0
    ensures Befores(chain) == [Before(chain[0].id)] + Befores(chain[1..])
    ensures Afters(chain) == Afters(chain[1..]) + [After(chain[0].id)]
  {
  }

  /** Through a chain of pass-through middleware the trace is
      `Before_0 ... Before_{n-1}, <inner>, After_{n-1} ... After_0`, and the inner handler's
      context and error come out unchanged. */
  lemma {:induction false} PassThroughTrace(chain: seq<Middleware>, base: Handler, policy: ErrorPolicy, c: Context)
    requires AllPassThrough(chain)
    ensures var inner := Eval(base, policy, c);
      Eval(Nest(chain, base), policy, c) == Run(inner.ctx, Befores(chain) + inner.trace + Afters(chain), inner.err)
  {
    var inner := Eval(base, policy, c);
    if |chain| == 0 {
      assert Befores(chain) == [] && Afters(chain) == [];
      assert Befores(chain) + inner.trace + Afters(chain) == inner.trace;
    } else {
      var rest := chain[1..];
      assert AllPassThrough(rest) by {
        forall i | 0 <= i < |rest| ensures rest[i].PassThrough? {
          assert rest[i] == chain[i + 1];
        }
      }
      PassThroughTrace(rest, base, policy, c);
      var r := Eval(Nest(rest, base), policy, c);
      assert r.trace == Befores(rest) + inner.trace + Afters(rest);
      assert !chain[0].Stops();
      assert Eval(Nest(chain, base), policy, c) == Run(r.ctx, [Before(chain[0].id)] + r.trace + [After(chain[0].id)], r.err);
      BeforesAftersUnfold(chain);
      Regroup([Before(chain[0].id)], Befores(rest), inner.trace, Afters(rest), [After(chain[0].id)]);
    }
  }

  /** A middleware that stops at position k hides everything inside it: the result depends only
      on the layers before k, all of which observe the stop. */
  lemma StopTrace(chain: seq<Middleware>, k: nat, base: Handler, policy: ErrorPolicy, c: Context)
    requires k < |chain| && AllPassThrough(chain[..k]) && chain[k].Stops()
    ensures var s := Stop(chain[k], c);
      Eval(Nest(chain, base), policy, c) == Run(s.ctx, Befores(chain[..k]) + s.trace + Afters(chain[..k]), s.err)
  {
    NestLayers(chain, base, k);
    PassThroughTrace(chain[..k], Wrap(chain[k], Nest(chain[k + 1..], base)), policy, c);
  }

  /** A stopping middleware at position k keeps every later middleware and the business
      handler from running, whatever they are. */
  lemma StopIsolatesInner(chain: seq<Middleware>, k: nat, base: Handler, other: Handler, policy: ErrorPolicy, c: Context)
    requires k < |chain| && AllPassThrough(chain[..k]) && chain[k].Stops()
    ensures Eval(Nest(chain, base), policy, c) == Eval(Nest(chain[..k + 1], other), policy, c)
    ensures BusinessRun !in Eval(Nest(chain, base), policy, c).trace
  {
    StopTrace(chain, k, base, policy, c);
    assert chain[..k + 1][..k] == chain[..k];
    StopTrace(chain[..k + 1], k, other, policy, c);
  }

  /** Any stopping middleware has a first one at or before it, with only pass-through
      middleware outside that first one. */
  lemma {:induction false} FirstStop(chain: seq<Middleware>, k: nat) returns (i: nat)
    requires k < |chain| && chain[k].Stops()
    ensures i <= k && AllPassThrough(chain[..i]) && chain[i].Stops()
    decreases k
  {
    if k > 0 && !(AllPassThrough(chain[..k])) {
      var j :| 0 <= j < k && !chain[j].PassThrough?;
      i := FirstStop(chain, j);
    } else {
      i := k;
    }
  }

  /** Whatever sits outside it, a stopping middleware at position k hides every later
      middleware and the business handler. */
  lemma StopHidesInner(chain: seq<Middleware>, k: nat, base: Handler, other: Handler, policy: ErrorPolicy, c: Context)
    requires k < |chain| && chain[k].Stops()
    ensures Eval(Nest(chain, base), policy, c) == Eval(Nest(chain[..k + 1], other), policy, c)
  {
    var i := FirstStop(chain, k);
    StopIsolatesInner(chain, i, base, other, policy, c);
    var front := chain[..k + 1];
    assert front[..i] == chain[..i] && front[..i + 1] == chain[..i + 1];
    StopIsolatesInner(front, i, other, other, policy, c);
  }

  /** Pass-through middleware adds no call of the error handler and no run of a business
      handler to what the inner handler does. */
  lemma PassThroughQuiet(chain: seq<Middleware>, base: Handler, policy: ErrorPolicy, c: Context)
    requires AllPassThrough(chain)
    ensures var r, inner := Eval(Nest(chain, base), policy, c), Eval(base, policy, c);
      && ErrorCalls(r.trace) == ErrorCalls(inner.trace)
      && (BusinessRun in r.trace <==> BusinessRun in inner.trace)
      && r.ctx == inner.ctx
  {
    PassThroughTrace(chain, base, policy, c);
    var inner := Eval(base, policy, c);
    ErrorCallsAppend(Befores(chain), inner.trace);
    ErrorCallsAppend(Befores(chain) + inner.trace, Afters(chain));
    ErrorCallsNone(Befores(chain));
    ErrorCallsNone(Afters(chain));
  }

  /** Behind a stopping middleware at position k the error handler is never called and no
      business handler runs; a short circuit leaves its own status as the response. */
  lemma StopQuiet(chain: seq<Middleware>, k: nat, base: Handler, policy: ErrorPolicy, c: Context)
    requires k < |chain| && AllPassThrough(chain[..k]) && chain[k].Stops()
    ensures var r := Eval(Nest(chain, base), policy, c);
      && ErrorCalls(r.trace) == []
      && BusinessRun !in r.trace
      && (chain[k].ShortCircuit? ==> r.ctx.response.Written() && r.ctx.response.status == chain[k].status)
      && (chain[k].ShortCircuit? ==> (r.err.Some? <==> !c.transportOk))
      && (chain[k].Reject? ==> r.ctx == c && r.err == Some(chain[k].err))
  {
    NestLayers(chain, base, k);
    var stopped := Wrap(chain[k], Nest(chain[k + 1..], base));
    PassThroughQuiet(chain[..k], stopped, policy, c);
    ErrorCallsNone(Stop(chain[k], c).trace);
    PassThroughTrace(chain[..k], stopped, policy, c);
  }

  /** No handler runs the decoder: that is the dispatcher's step alone. */
  lemma {:induction false} EvalNeverDecodes(h: Handler, policy: ErrorPolicy, c: Context)
    ensures DecodeAttempted !in Eval(h, policy, c).trace
    decreases h
  {
    match h
    case Terminal(b) =>
      var inner := RunBusiness(b, c);
      if inner.err.Some? {
        var handled := HandleError(policy, inner.ctx, inner.err.value);
        assert DecodeAttempted !in handled.trace;
      }
    case InvalidRequest(_) =>
    case Wrap(m, inner) =>
      if !m.Stops() {
        EvalNeverDecodes(inner, policy, c);
      }
  }

  /** The decode-failure responder wrapped in any chain never invokes a business handler. */
  lemma {:induction false} FallbackNeverRunsBusiness(chain: seq<Middleware>, text: string, policy: ErrorPolicy, c: Context)
    ensures BusinessRun !in Eval(Nest(chain, InvalidRequest(text)), policy, c).trace
    decreases |chain|
  {
    if |chain| > 0 && !chain[0].Stops() {
      FallbackNeverRunsBusiness(chain[1..], text, policy, c);
    }
  }

  /** Starting from an unanswered request over a working transport, a composed handler writes
      at most once, and a handler that returns an error has written nothing. */
  lemma {:induction false} EvalWritesAtMostOnce(h: Handler, policy: ErrorPolicy, c: Context)
    requires c.transportOk && c.response.writes == 0
    ensures Eval(h, policy, c).ctx.response.writes <= 1
    ensures Eval(h, policy, c).err.Some? ==> Eval(h, policy, c).ctx.response.writes == 0
    decreases h
  {
    match h
    case Terminal(b) =>
    case InvalidRequest(_) =>
    case Wrap(m, inner) =>
      if !m.Stops() {
        EvalWritesAtMostOnce(inner, policy, c);
      }
  }
}

=== FILE: context.dfy ===
/** Per-request state the handlers act on: the copied route and query parameters, the decoded
    payload and the response written so far, plus the trace of observable steps the dispatcher
    and its handlers take. The runtime's `Context` type (`NewContext`, `Respond`,
    `ResponseWritten`) is used by application.go but is not part of this model; it is described
    here only by the behaviour application.go relies on. */
module RequestContext {

  datatype Option<+T> = None | Some(value: T)

  /** An error value. `badRequest` stands for the dynamic type test `e.(*BadRequestError)`. */
  datatype Error = Error(message: string, badRequest: bool)

  /** The error the dispatcher hands to the error handler when nothing answered the request. */
  const UnhandledRequest := Error("unhandled request", false)

  /** The error `Respond` returns when the transport refuses the write. */
  const WriteFailure := Error("write failed", false)

  const ContentType := "Content-Type"
  const JsonMediaType := "application/json"

  /** What has been sent back so far. `writes` counts the calls of `Respond`. */
  datatype Response = Response(writes: nat, status: int, headers: map<string, string>, body: string)
  {
    /** The source's `ResponseWritten`: true once anything was sent, never reset. */
    predicate Written() { writes > 0 }
  }

  /** `transportOk` is false when the client connection refuses writes. */
  datatype Context = Context(
    params: map<string, string>,
    query: map<string, seq<string>>,
    payload: Option<string>,
    response: Response,
    transportOk: bool)

  /** Observable steps of one request, in the order they happen. */
  datatype Event =
    | DecodeAttempted          // the payload decoder ran
    | Before(id: nat)          // a pass-through middleware, before calling inward
    | After(id: nat)           // the same middleware, after the inner handler returned
    | ShortCircuited(id: nat)  // a middleware answered the request itself
    | Rejected(id: nat)        // a middleware returned an error without calling inward
    | BusinessRun              // the business handler was invoked
    | InvalidRequestSent       // the decode-failure responder ran
    | ErrorHandled(e: Error)   // the application error handler was invoked with e
    | WriteFailureLogged       // an error handler's write failed and was only logged

  /** Result of `Respond`: the updated context and the transport error, if any. */
  datatype Sent = Sent(ctx: Context, err: Option<Error>)

  /** Result of something that returns nothing, such as an error handler. */
  datatype Effect = Effect(ctx: Context, trace: seq<Event>)

  /** Result of running a handler: the context, the trace and the returned error. */
  datatype Run = Run(ctx: Context, trace: seq<Event>, err: Option<Error>)

  function NewContext(
    params: map<string, string>, query: map<string, seq<string>>,
    payload: Option<string>, transportOk: bool): (c: Context)
    ensures c.params == params && c.query == query && c.payload == payload
    ensures c.transportOk == transportOk
    ensures !c.response.Written() && c.response.headers == map[]
  {
    Context(params, query, payload, Response(0, 200, map[], ""), transportOk)
  }

  /** Sends status and body. The written flag is set even when the transport then fails. */
  function Respond(c: Context, status: int, body: string): (w: Sent)
    ensures w.ctx.response.Written()
    ensures w.ctx.response.writes == c.response.writes + 1
    ensures w.ctx.response.status == status && w.ctx.response.body == body
    ensures w.ctx.response.headers == c.response.headers
    ensures w.ctx == c.(response := w.ctx.response)
    ensures w.err.Some? <==> !c.transportOk
  {
    var resp := Response(c.response.writes + 1, status, c.response.headers, body);
    Sent(c.(response := resp), if c.transportOk then None else Some(WriteFailure))
  }

  /** `Header().Set(name, value)`: overwrites one header, leaves the others alone. */
  function SetHeader(c: Context, name: string, value: string): (r: Context)
    ensures name in r.response.headers && r.response.headers[name] == value
    ensures forall h :: h in c.response.headers && h != name ==>
              h in r.response.headers && r.response.headers[h] == c.response.headers[h]
    ensures r.response.headers.Keys == c.response.headers.Keys + {name}
    ensures r == c.(response := r.response.(headers := r.response.headers))
    ensures r.response.(headers := c.response.headers) == c.response
  {
    c.(response := c.response.(headers := c.response.headers[name := value]))
  }

  /** The errors the application error handler was invoked with, in order. */
  function ErrorCalls(trace: seq<Event>): seq<Error>
  {
    if |trace| == 0 then []
    else (if trace[0].ErrorHandled? then [trace[0].e] else []) + ErrorCalls(trace[1..])
  }

  lemma {:induction false} ErrorCallsAppend(a: seq<Event>, b: seq<Event>)
    ensures ErrorCalls(a + b) == ErrorCalls(a) + ErrorCalls(b)
  {
    if |a| > 0 {
      assert (a + b)[0] == a[0] && (a + b)[1..] == a[1..] + b;
      ErrorCallsAppend(a[1..], b);
    } else {
      assert a + b == b;
    }
  }

  /** A trace with no `ErrorHandled` event records no call of the error handler. */
  lemma {:induction false} ErrorCallsNone(t: seq<Event>)
    requires forall i :: 0 <= i < |t| ==> !t[i].ErrorHandled?
    ensures ErrorCalls(t) == []
  {
    if |t| > 0 {
      ErrorCallsNone(t[1..]);
    }
  }
}

=== FILE: errorhandlers.dfy ===
/** The application error handler and its two built-in policies (application.go:175-202). */
module ErrorHandlers {
  import opened RequestContext

  /** Which error handler the application uses. `Silent` stands for a user-supplied handler that
      writes nothing: the case the dispatcher's final "unhandled request" check exists for. */
  datatype ErrorPolicy = Default | Terse | Silent
  {
    /** The built-in policies always write a response. */
    predicate Responds() { !Silent? }
  }

  /** Status the built-in policies choose: 400 for a bad-request error, 500 otherwise. */
  function StatusFor(e: Error): int
  {
    if e.badRequest then 400 else 500
  }

  /** Sets the JSON content type for a bad-request error; leaves the context alone otherwise. */
  function TypeFor(c: Context, e: Error): Context
  {
    if e.badRequest then SetHeader(c, ContentType, JsonMediaType) else c
  }

  /** A failed write is only logged, never handed back to an error handler. */
  function LogFailure(w: Sent): (r: Effect)
    ensures r.ctx == w.ctx
    ensures r.trace == (if w.err.Some? then [WriteFailureLogged] else [])
  {
    Effect(w.ctx, if w.err.Some? then [WriteFailureLogged] else [])
  }

  /** `DefaultErrorHandler`: 400 with the JSON content type for a bad-request error, 500
      otherwise, and the error message as the body in both cases. */
  function DefaultErrorHandler(c: Context, e: Error): (r: Effect)
    ensures r.ctx.response.status == (if e.badRequest then 400 else 500)
    ensures e.badRequest ==>
      ContentType in r.ctx.response.headers && r.ctx.response.headers[ContentType] == JsonMediaType
    ensures !e.badRequest ==> r.ctx.response.headers == c.response.headers
    ensures r.ctx.response.headers ==
      (if e.badRequest then c.response.headers[ContentType := JsonMediaType] else c.response.headers)
    ensures r.ctx.response.body == e.message
    ensures r.ctx.response.writes == c.response.writes + 1
    ensures r.ctx == c.(response := r.ctx.response)
    ensures r.trace == (if c.transportOk then [] else [WriteFailureLogged])
  {
    LogFailure(Respond(TypeFor(c, e), StatusFor(e), e.message))
  }

  /** `TerseErrorHandler`: the same status and content type as the default policy, but the
      message is sent only for a bad-request error; a 500 has an empty body. */
  function TerseErrorHandler(c: Context, e: Error): (r: Effect)
    ensures r.ctx.response.status == (if e.badRequest then 400 else 500)
    ensures e.badRequest ==>
      ContentType in r.ctx.response.headers && r.ctx.response.headers[ContentType] == JsonMediaType
    ensures !e.badRequest ==> r.ctx.response.headers == c.response.headers
    ensures r.ctx.response.headers ==
      (if e.badRequest then c.response.headers[ContentType := JsonMediaType] else c.response.headers)
    ensures r.ctx.response.body == (if e.badRequest then e.message else "")
    ensures r.ctx.response.writes == c.response.writes + 1
    ensures r.ctx == c.(response := r.ctx.response)
    ensures r.trace == (if c.transportOk then [] else [WriteFailureLogged])
  {
    LogFailure(Respond(TypeFor(c, e), StatusFor(e), if e.badRequest then e.message else ""))
  }

  /** Invokes the application's error handler. No error handler re-enters the error path. */
  function HandleError(policy: ErrorPolicy, c: Context, e: Error): (r: Effect)
    ensures policy.Responds() ==> r.ctx.response.Written()
    ensures policy.Responds() ==> r.ctx.response.writes == c.response.writes + 1
    ensures policy.Silent? ==> r == Effect(c, [])
    ensures r.ctx == c.(response := r.ctx.response)
    ensures forall i :: 0 <= i < |r.trace| ==> r.trace[i] == WriteFailureLogged
  {
    match policy
    case Default => DefaultErrorHandler(c, e)
    case Terse => TerseErrorHandler(c, e)
    case Silent => Effect(c, [])
  }

  /** The two policies differ only in the body of a 500: same status, headers, write count
      and trace, and the same body exactly when the error is a bad request or has no message. */
  lemma TerseDiffersOnlyInInternalBody(c: Context, e: Error)
    ensures var d, t := DefaultErrorHandler(c, e), TerseErrorHandler(c, e);
      && d.ctx.response.status == t.ctx.response.status
      && d.ctx.response.headers == t.ctx.response.headers
      && d.ctx.response.writes == t.ctx.response.writes
      && d.trace == t.trace
      && (d.ctx.response.body == t.ctx.response.body <==> e.badRequest || e.message == "")
  {
  }

  /** Whatever the policy, the error handler's own trace records no error-handler call. */
  lemma HandleErrorNeverReenters(policy: ErrorPolicy, c: Context, e: Error)
    ensures ErrorCalls(HandleError(policy, c, e).trace) == []
  {
    ErrorCallsNone(HandleError(policy, c, e).trace);
  }
}
